=== FILE: README.md ===
# Cache-metadata normaliser and default-header merge of the JS network manager

The JS network manager of minitube is a thin layer over Qt's
`QNetworkAccessManager` and `QNetworkDiskCache`. Two pieces of it carry
behaviour of their own, and this project models and verifies them:

- `JSDiskCache::fixMetadata`: before the disk cache stores metadata, through
  either `updateMetaData` or `prepare`, the record is copied. An expiration that
  is already in the past is pushed to one hour after now. The function is
  meant to remove (comment at jsnamfactory.cpp:23) every raw header named
  exactly `cache-control`, `expires`, `pragma`, `Cache-Control`, `Expires` or
  `Pragma`. The names are compared byte for byte, so `CACHE-CONTROL` is kept.
  The loop as written misses a caching header that directly follows an erased
  header other than the first, and it steps past `end()` after erasing the
  last header (see Findings).
- The request half of `JSNAM::createRequest`: the caller's request is copied
  and its cache-load attribute is set to `PreferCache`. Each of the factory's
  default headers is set only when the copy does not already carry a header of
  that name. The copy and the unchanged operation go on to Qt.

Files:

- `headers.dfy`: byte strings (`Headers.Bytes`) and raw header pairs.
- `option.dfy`: `Optional.Option`, for an absent header value and for a loop
  with no defined result.
- `cache_metadata.dfy`: `DateTime`, `MetaData`, the clamp and the header filter,
  and `FixMetadata` with its lemmas. The clock is the `now` parameter, in
  milliseconds since the epoch, UTC. That is QDateTime's resolution, so
  `addSecs(3600)` adds 3 600 000.
- `erase_loop.dfy`: the header-removal loop exactly as written, with the
  inputs on which it differs from the intended filter (see Findings). The
  list's erase follows Qt 6's `QList`. Erasing the first element moves the
  array's start forward, so the next header is not skipped. Erasing any
  other element moves the later elements down one place.
- `request.dfy`: `Request`, the default-header merge, `CreateRequest` and their
  lemmas.

Modelling decisions:

- Expiration is `Invalid | Utc(msecs)`. The model does not decide how Qt's `<`
  orders an unset (invalid) date against `now`. The flag `invalidIsEarlier`
  says whether an unset expiration counts as already past. Every property
  holds for both values of the flag.
- Header-name equality for `hasRawHeader` is the parameter `eq`. Qt compares
  case-insensitively, but the model does not build that in. Properties that
  need `eq` to be reflexive, or the defaults to have names that are distinct
  under `eq`, say so in their `requires`.
- The factory's defaults are a sequence in the factory map's iteration order.
  `setRawHeader` on a name the request lacks appends the header.
  `setRawHeader` ignores an empty name, so a default with an empty name is
  never set.
- Both cache entry points (jsnamfactory.cpp:5-13) hand Qt the result of
  `fixMetadata` and nothing else, so `FixMetadata` is the whole contract of
  both.

## Model

| member | source | states |
|---|---|---|
| CacheMetadata.AddSecs | jsnamfactory.cpp:20 | an invalid date stays invalid; a valid one moves by exactly `secs` seconds |
| CacheMetadata.EarlierThan | jsnamfactory.cpp:19 | a set expiration is earlier than now exactly when its instant is before now; an unset one counts as earlier exactly when `invalidIsEarlier` holds |
| CacheMetadata.ClampExpiration | jsnamfactory.cpp:18-21 | an expiration earlier than now becomes now + 3600 s; any other is unchanged; the result is never earlier than now |
| CacheMetadata.IsCachingHeader | jsnamfactory.cpp:26-28 | a name is removed only if it equals one of the six listed spellings byte for byte, so only names of 6, 7 or 13 bytes can be removed |
| CacheMetadata.StripCachingHeaders | jsnamfactory.cpp:23-33 | the removal the comment at line 23 intends: no header named by one of the six fixed spellings remains, and the list never grows |
| CacheMetadata.StripMembership | jsnamfactory.cpp:24-33 | every header with another name is kept, and no header is added |
| CacheMetadata.StripAppend | jsnamfactory.cpp:24-33 | filtering a concatenation filters each part, so kept headers keep their relative order |
| CacheMetadata.StripIsSubsequence | jsnamfactory.cpp:24-33 | the filtered list is the input with some headers deleted, in input order |
| CacheMetadata.StripMultiplicity | jsnamfactory.cpp:24-33 | a kept header occurs exactly as often as in the input; a removed one does not occur |
| CacheMetadata.StripWithoutCachingHeaders | jsnamfactory.cpp:24-33 | a list without caching headers comes back unchanged |
| CacheMetadata.StripIdempotent | jsnamfactory.cpp:24-33 | filtering twice is filtering once |
| CacheMetadata.StripCachingHeadersLoop | jsnamfactory.cpp:25-31 | the removal loop with the iterator advanced only past kept headers computes exactly the filter |
| CacheMetadata.FixMetadata | jsnamfactory.cpp:15-36 | an already-past expiration becomes now + 3600 s and any other is kept; afterwards none is earlier than now; with the intended removal, no caching header remains; every other header is kept and none is added; url, last-modified and save-to-disk are those of the input |
| CacheMetadata.FixMetadataIdempotent | jsnamfactory.cpp:15-36 | for a fixed now, normalising twice equals normalising once |
| CacheMetadata.FixMetadataKeepsOrder | jsnamfactory.cpp:23-33 | the result's headers are a subsequence of the input's, with each kept header as often as before |
| CacheMetadata.UpperCaseNameKept | jsnamfactory.cpp:26-28 | matching is exact bytes: a `CACHE-CONTROL` header survives normalisation |
| CacheMetadata.EpochEntryExample | jsnamfactory.cpp:15-35 | an entry expired at the epoch with `Cache-Control: no-store` and `X-Custom: 1` keeps only `X-Custom: 1` and expires at now + 3600 s |
| EraseLoopAsWritten.EraseLoopFrom | jsnamfactory.cpp:25-31 | the loop as written, with Qt 6 erase (nothing skipped after erasing the first header, the next one skipped after erasing any other): it never adds a header and never grows the list, or it steps past `end()` |
| EraseLoopAsWritten.EraseLoopFromKeeps | jsnamfactory.cpp:25-31 | the loop as written never drops a header it should keep: every header before the iterator and every later non-caching header is in the result whenever it does not step past `end()`; its only defect is leaving caching headers behind |
| EraseLoopAsWritten.EraseLoop | jsnamfactory.cpp:24-31 | the loop as written from the first header keeps only headers of the input, when it does not step past `end()` |
| EraseLoopAsWritten.EraseLoopFromWithoutCachingHeaders | jsnamfactory.cpp:25-31 | with no caching header the loop as written changes nothing |
| EraseLoopAsWritten.EraseLoopAgreesWithoutCachingHeaders | jsnamfactory.cpp:25-31 | with no caching header the loop as written equals the intended filter |
| EraseLoopAsWritten.LeadingCachingHeadersRemoved | jsnamfactory.cpp:25-31 | caching headers at the front are all erased, because erasing the first header skips nothing: `[Cache-Control, Expires, X-Custom]` ends as `[X-Custom]`, as the filter gives |
| EraseLoopAsWritten.AdjacentCachingHeaderSurvives | jsnamfactory.cpp:28-30 | in `[X-A, X-B, Cache-Control, Expires]`, erasing `Cache-Control` at position 2 moves `Expires` down, `++i` skips it and it survives the loop as written; the filter drops it |
| EraseLoopAsWritten.TrailingCachingHeaderStepsPastEnd | jsnamfactory.cpp:25-30 | when the last header is a caching header, the loop as written steps past `end()` |
| NetworkRequest.HasRawHeader | jsnamfactory.cpp:58 | a request with no headers carries no name; a single header carries exactly its own name under `eq` |
| NetworkRequest.HasRawHeaderAppend | jsnamfactory.cpp:58 | a concatenation of header lists carries a name exactly when one of the parts does |
| NetworkRequest.RawHeaderValue | jsnamfactory.cpp:58 | a value is read for a name exactly when `hasRawHeader` reports the name present |
| NetworkRequest.ValueOfFirstMatch | jsnamfactory.cpp:58 | the value read is that of the first header whose name matches |
| NetworkRequest.MergeDefaultHeaders | jsnamfactory.cpp:56-63 | the request's own headers stay in place and in order; each default adds at most one header |
| NetworkRequest.MergeAddsOnlyMissing | jsnamfactory.cpp:57-59 | every added header is a default with a non-empty name that the request did not carry |
| NetworkRequest.MergeCoversDefaults | jsnamfactory.cpp:57-59 | with a reflexive `eq`, every default with a non-empty name is present afterwards, either set by the merge or already there |
| NetworkRequest.MergeAddsMissingDefaults | jsnamfactory.cpp:57-59 | a default whose name the request lacks is added exactly when its name is not empty, when no two defaults share a name |
| NetworkRequest.MergeKeepsExistingValue | jsnamfactory.cpp:58 | a header the request already carries reads back with its old value |
| NetworkRequest.MergeFillsMissingValue | jsnamfactory.cpp:58-59 | a default the request lacked reads back with the default value; one with an empty name was ignored and still reads back as absent |
| NetworkRequest.MergeWhenAllPresent | jsnamfactory.cpp:57-59 | when every default with a non-empty name is already present, the merge changes nothing |
| NetworkRequest.MergeIdempotent | jsnamfactory.cpp:56-63 | merging the same defaults twice equals merging them once |
| NetworkRequest.CreateRequest | jsnamfactory.cpp:50-65 | the operation is passed on unchanged; the request passed on always prefers the cache; it keeps the caller's url and headers in place; it adds only defaults with non-empty names the caller lacked, and with a reflexive `eq` every such default is present |
| NetworkRequest.CreateRequestIdempotent | jsnamfactory.cpp:53-63 | preparing an already prepared request again changes nothing |

## Left out

- FixMetadata, StripCachingHeaders: model the removal intended by the comment at jsnamfactory.cpp:23, not the loop as written; the loop as written is `erase_loop.dfy` (see Findings).
- Constructor configuration (jsnamfactory.cpp:40-47): cache directory `…/js`, the 10 MiB size limit, the no-less-safe redirect policy and the 10 s transfer timeout. These only set parameters on Qt objects whose behaviour is Qt's, so redirect following and timeouts are not modelled.
- Delegation to `QNetworkDiskCache::updateMetaData`, `QNetworkDiskCache::prepare` and `QNetworkAccessManager::createRequest` (jsnamfactory.cpp:7, 12, 65). These are calls into Qt. The model stops at the value handed to them.
- Debug logging (jsnamfactory.cpp:29, 67-76, 82). It is diagnostic only and has no effect on any result.
- `JSNAMFactory::create` (jsnamfactory.cpp:81-84). It only constructs an object.
- The real clock (jsnamfactory.cpp:18). It is the `now` parameter.
- How QDateTime's `<` orders an invalid date. It is the `invalidIsEarlier` parameter.
- QDateTime's finite range. Instants are unbounded integers.
- Qt's case-insensitive header-name comparison. It is the `eq` parameter.
- Qt's removal of a header when `setRawHeader` gets a null value. The defaults are taken to hold real values.
- Request attributes other than the cache-load control. `url` stands for the fields the manager neither reads nor writes.
- The typed (cooked) headers Qt derives when `setRawHeader` gets a known name such as `User-Agent` or `Content-Type`. Only the raw header list is modelled.
- Qt 5's `QList`, which erases an element in the front half by moving the earlier elements up. The erase-loop model follows Qt 6; under Qt 5 the set of inputs on which a header is skipped differs, but `[X-A, X-B, Cache-Control, Expires]` still keeps `Expires`.
- Cache-metadata attributes (`QNetworkCacheMetaData::attributes`). They are carried along like `url` and are not modelled as a separate field.
- Caller's request not mutated (jsnamfactory.cpp:53): in a value model the input cannot change, so there is nothing to state.

## Findings

| source | as written | input that shows it | evidently intended | confidence | as-written member | corrected member |
|---|---|---|---|---|---|---|
| jsnamfactory.cpp:25-31 | after `headers.erase(i)` the loop still runs `++i`. Erasing a header other than the first moves the later headers down one place, so the header that moved into position `i` is skipped. When the last header is erased, `i` equals `end()` and the increment steps past it, so the loop then runs past the end of the list (undefined behaviour). No non-caching header is ever dropped | `[X-A: 1, X-B: 1, Cache-Control: no-store, Expires: 0]` keeps `Expires`; `[X-Custom: 1, Pragma: no-cache]` steps past `end()` | remove every caching header (the comment at line 23), with `i = headers.erase(i)` and an increment only past kept headers | medium (depends on how Qt 6's `QList` erases), not executed | EraseLoopAsWritten.AdjacentCachingHeaderSurvives | CacheMetadata.StripCachingHeadersLoop |

=== FILE: cache_metadata.dfy ===
/** The cache-metadata normaliser `JSDiskCache::fixMetadata`: every record
    handed to the disk cache (by `updateMetaData` and by `prepare`) first has an
    already-past expiration pushed one hour past now, and is meant to have its
    caching headers removed (the comment at jsnamfactory.cpp:23). This module
    models that intended removal. The loop as written misses a caching header
    that directly follows an erased header other than the first, and steps
    past `end()` after erasing the last one; it is modelled in
    `EraseLoopAsWritten`. */
module CacheMetadata {
  import opened Headers

  /** A QDateTime in UTC at millisecond resolution, or the invalid (unset) date. */
  datatype DateTime = Invalid | Utc(msecs: int)

  const MsecsPerSecond := 1000

  /** How far past now an already-expired entry is pushed. */
  const GraceSeconds := 3600

  /** `QDateTime::addSecs`: an invalid date stays invalid. */
  function AddSecs(t: DateTime, secs: int): (r: DateTime)
    ensures r.Invalid? <==> t.Invalid?
    ensures t.Utc? ==> r.msecs - t.msecs == secs * MsecsPerSecond
  {
    match t
    case Invalid => Invalid
    case Utc(ms) => Utc(ms + secs * MsecsPerSecond)
  }

  /** `expirationDate() < now` for a valid `now`. How an invalid date compares
      is not decided here: `invalidIsEarlier` says it. */
  predicate EarlierThan(t: DateTime, now: int, invalidIsEarlier: bool)
    ensures t.Utc? ==> (EarlierThan(t, now, invalidIsEarlier) <==> t.msecs < now)
    ensures t.Invalid? ==> (EarlierThan(t, now, invalidIsEarlier) <==> invalidIsEarlier)
  {
    match t
    case Invalid => invalidIsEarlier
    case Utc(ms) => ms < now
  }

  /** The fields of QNetworkCacheMetaData that a copy carries along. */
  datatype MetaData = MetaData(
    url: string,
    lastModified: DateTime,
    expirationDate: DateTime,
    saveToDisk: bool,
    rawHeaders: seq<RawHeader>)

  /** The expiration the normaliser writes back. */
  function ClampExpiration(e: DateTime, now: int, invalidIsEarlier: bool): (r: DateTime)
    ensures EarlierThan(e, now, invalidIsEarlier) ==> r == Utc(now + GraceSeconds * MsecsPerSecond)
    ensures !EarlierThan(e, now, invalidIsEarlier) ==> r == e
    ensures !EarlierThan(r, now, invalidIsEarlier)
  {
    if EarlierThan(e, now, invalidIsEarlier) then AddSecs(Utc(now), GraceSeconds) else e
  }

  /** The six names removed, compared byte for byte (no case folding). */
  const HeadersToRemove: seq<Bytes> := [
    Latin1("cache-control"), Latin1("expires"), Latin1("pragma"),
    Latin1("Cache-Control"), Latin1("Expires"), Latin1("Pragma")
  ]

  /** `headersToRemove.contains(name)`: exact membership, so only names of
      6, 7 or 13 bytes can match. */
  predicate IsCachingHeader(name: Bytes)
    ensures IsCachingHeader(name) ==> |name| == 6 || |name| == 7 || |name| == 13
  {
    name in HeadersToRemove
  }

  /** The header list with every caching header removed, in the original order. */
  function StripCachingHeaders(hs: seq<RawHeader>): (r: seq<RawHeader>)
    ensures |r| <= |hs|
    ensures forall i :: 0 <= i < |r| ==> !IsCachingHeader(r[i].name)
    decreases |hs|
  {
    if |hs| == 0 then []
    else if IsCachingHeader(hs[0].name) then StripCachingHeaders(hs[1..])
    else [hs[0]] + StripCachingHeaders(hs[1..])
  }

  /** Nothing is added, and every header with another name is kept. */
  lemma {:induction false} StripMembership(hs: seq<RawHeader>)
    ensures forall h :: h in StripCachingHeaders(hs) ==> h in hs
    ensures forall h :: h in hs && !IsCachingHeader(h.name) ==> h in StripCachingHeaders(hs)
    decreases |hs|
  {
    if |hs| > 0 {
      StripMembership(hs[1..]);
      assert hs == [hs[0]] + hs[1..];
    }
  }

  /** `r` arises from `s` by deleting elements. */
  ghost predicate IsSubsequence<T>(r: seq<T>, s: seq<T>)
    decreases |s|
  {
    |r| == 0 ||
    (|s| > 0 && ((r[0] == s[0] && IsSubsequence(r[1..], s[1..])) || IsSubsequence(r, s[1..])))
  }

  /** Filtering distributes over concatenation: each header is kept or dropped
      on its own, so the relative order of kept headers cannot change. */
  lemma {:induction false} StripAppend(a: seq<RawHeader>, b: seq<RawHeader>)
    ensures StripCachingHeaders(a + b) == StripCachingHeaders(a) + StripCachingHeaders(b)
    decreases |a|
  {
    if |a| == 0 {
      assert a + b == b;
    } else {
      assert (a + b)[0] == a[0];
      assert (a + b)[1..] == a[1..] + b;
      StripAppend(a[1..], b);
    }
  }

  /** The kept headers appear in the same relative order as in the input. */
  lemma {:induction false} StripIsSubsequence(hs: seq<RawHeader>)
    ensures IsSubsequence(StripCachingHeaders(hs), hs)
    decreases |hs|
  {
    if |hs| > 0 {
      StripIsSubsequence(hs[1..]);
      var r := StripCachingHeaders(hs);
      if !IsCachingHeader(hs[0].name) {
        assert r[0] == hs[0] && r[1..] == StripCachingHeaders(hs[1..]);
      }
    }
  }

  /** A kept header occurs exactly as often as in the input; a removed one never. */
  lemma {:induction false} StripMultiplicity(hs: seq<RawHeader>, h: RawHeader)
    ensures !IsCachingHeader(h.name) ==> multiset(StripCachingHeaders(hs))[h] == multiset(hs)[h]
    ensures IsCachingHeader(h.name) ==> multiset(StripCachingHeaders(hs))[h] == 0
    decreases |hs|
  {
    if |hs| > 0 {
      var tail := StripCachingHeaders(hs[1..]);
      StripMultiplicity(hs[1..], h);
      assert hs == [hs[0]] + hs[1..];
      assert multiset(hs) == multiset([hs[0]]) + multiset(hs[1..]);
      if !IsCachingHeader(hs[0].name) {
        assert multiset(StripCachingHeaders(hs)) == multiset([hs[0]]) + multiset(tail);
      }
    }
  }

  /** A list without caching headers is left as it is. */
  lemma {:induction false} StripWithoutCachingHeaders(hs: seq<RawHeader>)
    requires forall i :: 0 <= i < |hs| ==> !IsCachingHeader(hs[i].name)
    ensures StripCachingHeaders(hs) == hs
    decreases |hs|
  {
    if |hs| > 0 {
      StripWithoutCachingHeaders(hs[1..]);
      assert [hs[0]] + hs[1..] == hs;
    }
  }

  /** Filtering twice is filtering once. */
  lemma {:induction false} StripIdempotent(hs: seq<RawHeader>)
    ensures StripCachingHeaders(StripCachingHeaders(hs)) == StripCachingHeaders(hs)
  {
    StripWithoutCachingHeaders(StripCachingHeaders(hs));
  }

  /** Filtering a suffix starting at `i` decides on header `i` first. */
  lemma StripSuffix(hs: seq<RawHeader>, i: nat)
    requires i < |hs|
    ensures StripCachingHeaders(hs[i..]) ==
            (if IsCachingHeader(hs[i].name) then [] else [hs[i]]) + StripCachingHeaders(hs[i + 1..])
  {
  }

  /** The header loop of the normaliser with the iterator advanced correctly:
      an erase leaves the position on the next header, only a kept header
      moves it on. */
  method StripCachingHeadersLoop(hs: seq<RawHeader>) returns (headers: seq<RawHeader>)
    ensures headers == StripCachingHeaders(hs)
  {
    headers := hs;
    var i := 0;
    while i < |headers|
      invariant 0 <= i <= |headers|
      invariant headers[..i] + StripCachingHeaders(headers[i..]) == StripCachingHeaders(hs)
      decreases |headers| - i
    {
      StripSuffix(headers, i);
      if IsCachingHeader(headers[i].name) {
        ghost var before := headers;
        headers := headers[..i] + headers[i + 1..];
        assert headers[..i] == before[..i];
        assert headers[i..] == before[i + 1..];
      } else {
        assert headers[..i + 1] == headers[..i] + [headers[i]];
        i := i + 1;
      }
    }
    assert headers[..i] == headers;
  }

  /** `JSDiskCache::fixMetadata` with the clock read passed in as `now`
      (milliseconds since the epoch, UTC), and with the header removal it is
      meant to perform rather than the loop as written, which misses a caching
      header that directly follows an erased header other than the first, and
      steps past `end()` after erasing the last one (see `EraseLoopAsWritten`). */
  function FixMetadata(meta: MetaData, now: int, invalidIsEarlier: bool): (r: MetaData)
    ensures EarlierThan(meta.expirationDate, now, invalidIsEarlier) ==>
              r.expirationDate == Utc(now + GraceSeconds * MsecsPerSecond)
    ensures !EarlierThan(meta.expirationDate, now, invalidIsEarlier) ==>
              r.expirationDate == meta.expirationDate
    ensures !EarlierThan(r.expirationDate, now, invalidIsEarlier)
    ensures forall i :: 0 <= i < |r.rawHeaders| ==> !IsCachingHeader(r.rawHeaders[i].name)
    ensures forall h :: h in meta.rawHeaders && !IsCachingHeader(h.name) ==> h in r.rawHeaders
    ensures forall h :: h in r.rawHeaders ==> h in meta.rawHeaders
    ensures r.url == meta.url && r.lastModified == meta.lastModified && r.saveToDisk == meta.saveToDisk
  {
    StripMembership(meta.rawHeaders);
    meta.(expirationDate := ClampExpiration(meta.expirationDate, now, invalidIsEarlier),
          rawHeaders := StripCachingHeaders(meta.rawHeaders))
  }

  /** For a fixed `now`, normalising twice is normalising once. */
  lemma FixMetadataIdempotent(meta: MetaData, now: int, invalidIsEarlier: bool)
    ensures FixMetadata(FixMetadata(meta, now, invalidIsEarlier), now, invalidIsEarlier)
         == FixMetadata(meta, now, invalidIsEarlier)
  {
    StripIdempotent(meta.rawHeaders);
  }

  /** The headers of the result are the input's kept headers in input order:
      a subsequence, each kept header as often as before. */
  lemma FixMetadataKeepsOrder(meta: MetaData, now: int, invalidIsEarlier: bool, h: RawHeader)
    ensures IsSubsequence(FixMetadata(meta, now, invalidIsEarlier).rawHeaders, meta.rawHeaders)
    ensures !IsCachingHeader(h.name) ==>
              multiset(FixMetadata(meta, now, invalidIsEarlier).rawHeaders)[h] == multiset(meta.rawHeaders)[h]
  {
    StripIsSubsequence(meta.rawHeaders);
    StripMultiplicity(meta.rawHeaders, h);
  }

  /** Matching is exact: an upper-case `CACHE-CONTROL` is not removed. */
  lemma UpperCaseNameKept(meta: MetaData, now: int, invalidIsEarlier: bool, value: Bytes)
    requires RawHeader(Latin1("CACHE-CONTROL"), value) in meta.rawHeaders
    ensures RawHeader(Latin1("CACHE-CONTROL"), value) in FixMetadata(meta, now, invalidIsEarlier).rawHeaders
  {
    var n := Latin1("CACHE-CONTROL");
    assert n[1] != HeadersToRemove[0][1];
    assert n[1] != HeadersToRemove[3][1];
    assert |n| != |HeadersToRemove[1]| && |n| != |HeadersToRemove[2]|;
    assert |n| != |HeadersToRemove[4]| && |n| != |HeadersToRemove[5]|;
    assert !IsCachingHeader(n);
  }

  /** An entry that expired at the epoch with a `Cache-Control: no-store` and
      an `X-Custom: 1` header keeps only `X-Custom` and expires an hour from now. */
  lemma EpochEntryExample(now: int)
    requires 0 < now
    ensures var meta := MetaData("http://example.com/", Invalid, Utc(0), true,
                                 [RawHeader(Latin1("Cache-Control"), Latin1("no-store")),
                                  RawHeader(Latin1("X-Custom"), Latin1("1"))]);
            var r := FixMetadata(meta, now, false);
            r.expirationDate == Utc(now + 3_600_000) &&
            r.rawHeaders == [RawHeader(Latin1("X-Custom"), Latin1("1"))]
  {
  }
}

=== FILE: erase_loop.dfy ===
/** The header loop of `JSDiskCache::fixMetadata` as it is written: the loop
    erases the current header and then still runs `++i`. The effect depends on
    how the list erases; this module follows Qt 6's `QList`, a contiguous array
    that erases its first element by moving its start forward and any other
    element by moving the later elements down one place.
    - Erasing the first header leaves `i` just before the new start, so `++i`
      lands on the header that followed: nothing is skipped.
    - Erasing a later header moves the next header into position `i`, and `++i`
      skips it.
    - Erasing the last header leaves `i` on `end()`; `++i` steps past it and
      the loop runs past the end of the list (undefined behaviour). */
module EraseLoopAsWritten {
  import opened Headers
  import opened Optional
  import opened CacheMetadata

  /** The loop with the iterator at position `i`; `None` stands for stepping
      past `end()`, which is undefined behaviour and is not modelled further. */
  function EraseLoopFrom(headers: seq<RawHeader>, i: nat): (r: Option<seq<RawHeader>>)
    requires i <= |headers|
    ensures r.Some? ==> |r.value| <= |headers|
    ensures r.Some? ==> forall h :: h in r.value ==> h in headers
    decreases |headers| - i
  {
    if i == |headers| then Some(headers)
    else if IsCachingHeader(headers[i].name) then
      var rest := headers[..i] + headers[i + 1..];
      if i == |rest| then None
      else if i == 0 then EraseLoopFrom(rest, 0)
      else EraseLoopFrom(rest, i + 1)
    else EraseLoopFrom(headers, i + 1)
  }

  /** The loop as written never loses a header it should keep: every header
      before position `i`, and every later header that is not a caching
      header, is in the result. Its only defect is leaving caching headers
      behind (or stepping past `end()`). */
  lemma {:induction false} EraseLoopFromKeeps(headers: seq<RawHeader>, i: nat)
    requires i <= |headers|
    ensures EraseLoopFrom(headers, i).Some? ==>
              forall k :: 0 <= k < |headers| && (k < i || !IsCachingHeader(headers[k].name)) ==>
                headers[k] in EraseLoopFrom(headers, i).value
    decreases |headers| - i
  {
    if i < |headers| {
      if IsCachingHeader(headers[i].name) {
        var rest := headers[..i] + headers[i + 1..];
        if i < |rest| {
          var j := if i == 0 then 0 else i + 1;
          EraseLoopFromKeeps(rest, j);
          assert forall k :: 0 <= k < i ==> rest[k] == headers[k];
          assert forall k :: i < k < |headers| ==> rest[k - 1] == headers[k];
        }
      } else {
        EraseLoopFromKeeps(headers, i + 1);
      }
    }
  }

  /** The loop from `headers.begin()`. */
  function EraseLoop(headers: seq<RawHeader>): (r: Option<seq<RawHeader>>)
    ensures r.Some? ==> forall h :: h in r.value ==> h in headers
  {
    EraseLoopFrom(headers, 0)
  }

  /** Without caching headers the loop as written leaves the list as it is. */
  lemma {:induction false} EraseLoopFromWithoutCachingHeaders(headers: seq<RawHeader>, i: nat)
    requires i <= |headers|
    requires forall j :: 0 <= j < |headers| ==> !IsCachingHeader(headers[j].name)
    ensures EraseLoopFrom(headers, i) == Some(headers)
    decreases |headers| - i
  {
    if i < |headers| {
      EraseLoopFromWithoutCachingHeaders(headers, i + 1);
    }
  }

  /** ... and so agrees with the intended filter. */
  lemma EraseLoopAgreesWithoutCachingHeaders(headers: seq<RawHeader>)
    requires forall j :: 0 <= j < |headers| ==> !IsCachingHeader(headers[j].name)
    ensures EraseLoop(headers) == Some(StripCachingHeaders(headers))
  {
    EraseLoopFromWithoutCachingHeaders(headers, 0);
    StripWithoutCachingHeaders(headers);
  }

  /** Caching headers at the front are all erased, because erasing the first
      header skips nothing; on this input the loop as written agrees with the
      intended filter. */
  lemma LeadingCachingHeadersRemoved()
    ensures var hs := [RawHeader(Latin1("Cache-Control"), Latin1("no-store")),
                       RawHeader(Latin1("Expires"), Latin1("0")),
                       RawHeader(Latin1("X-Custom"), Latin1("1"))];
            && EraseLoop(hs) == Some([hs[2]])
            && StripCachingHeaders(hs) == [hs[2]]
  {
    var hs := [RawHeader(Latin1("Cache-Control"), Latin1("no-store")),
               RawHeader(Latin1("Expires"), Latin1("0")),
               RawHeader(Latin1("X-Custom"), Latin1("1"))];
    var x := Latin1("X-Custom");
    assert |x| != |HeadersToRemove[0]| && |x| != |HeadersToRemove[2]| && |x| != |HeadersToRemove[3]|;
    assert |x| != |HeadersToRemove[5]|;
    assert x[0] != HeadersToRemove[1][0] && x[0] != HeadersToRemove[4][0];
    assert !IsCachingHeader(x);
    assert IsCachingHeader(hs[0].name) && IsCachingHeader(hs[1].name);
    var rest := hs[..0] + hs[1..];
    assert rest == [hs[1], hs[2]];
    assert rest[..0] + rest[1..] == [hs[2]];
    assert EraseLoopFrom(hs, 0) == EraseLoopFrom(rest, 0);
    assert EraseLoopFrom(rest, 0) == EraseLoopFrom([hs[2]], 0);
    assert EraseLoopFrom([hs[2]], 0) == EraseLoopFrom([hs[2]], 1);
  }

  /** Two caching headers in a row after the front: the second one is skipped
      and survives, although the intended filter drops it. */
  lemma AdjacentCachingHeaderSurvives()
    ensures var hs := [RawHeader(Latin1("X-A"), Latin1("1")),
                       RawHeader(Latin1("X-B"), Latin1("1")),
                       RawHeader(Latin1("Cache-Control"), Latin1("no-store")),
                       RawHeader(Latin1("Expires"), Latin1("0"))];
            && EraseLoop(hs) == Some([hs[0], hs[1], hs[3]])
            && IsCachingHeader(hs[3].name)
            && StripCachingHeaders(hs) == [hs[0], hs[1]]
  {
    var hs := [RawHeader(Latin1("X-A"), Latin1("1")),
               RawHeader(Latin1("X-B"), Latin1("1")),
               RawHeader(Latin1("Cache-Control"), Latin1("no-store")),
               RawHeader(Latin1("Expires"), Latin1("0"))];
    var a := Latin1("X-A");
    var b := Latin1("X-B");
    assert forall k :: 0 <= k < |HeadersToRemove| ==> |HeadersToRemove[k]| != 3;
    assert !IsCachingHeader(a) && !IsCachingHeader(b);
    assert IsCachingHeader(hs[2].name) && IsCachingHeader(hs[3].name);
    var rest := hs[..2] + hs[3..];
    assert rest == [hs[0], hs[1], hs[3]];
    assert EraseLoopFrom(hs, 0) == EraseLoopFrom(hs, 2);
    assert EraseLoopFrom(hs, 2) == EraseLoopFrom(rest, 3);
  }

  /** A caching header in last position: erasing it leaves the iterator on
      `end()`, and the increment then steps past it. */
  lemma TrailingCachingHeaderStepsPastEnd()
    ensures var hs := [RawHeader(Latin1("X-Custom"), Latin1("1")),
                       RawHeader(Latin1("Pragma"), Latin1("no-cache"))];
            && EraseLoop(hs) == None
            && StripCachingHeaders(hs) == [hs[0]]
  {
  }
}

=== FILE: headers.dfy ===
/** Byte strings and raw header pairs, the values QByteArray and
    QPair<QByteArray, QByteArray> hold in the cache metadata and in requests. */
module Headers {

  newtype uint8 = x: int | 0 <= x < 256

  type Bytes = seq<uint8>

  /** The byte string spelled by a Latin-1 literal; used for fixed header names. */
  function Latin1(s: string): (b: Bytes)
    requires forall i :: 0 <= i < |s| ==> s[i] as int < 256
    ensures |b| == |s|
    ensures forall i :: 0 <= i < |s| ==> b[i] as int == s[i] as int
  {
    seq(|s|, i requires 0 <= i < |s| => s[i] as int as uint8)
  }

  /** One raw header: its name and its value, both uninterpreted bytes. */
  datatype RawHeader = RawHeader(name: Bytes, value: Bytes)
}

=== FILE: option.dfy ===
/** An optional value: a header that may be absent, or a loop that may stop
    without a defined result. */
module Optional {

  datatype Option<+T> = None | Some(value: T)
}

=== FILE: request.dfy ===
/** The request side of `JSNAM::createRequest`: the caller's request is copied,
    the copy is told to prefer the cache, and each configured default header is
    set on it only when it does not already carry a header of that name. The
    copy is what goes on to `QNetworkAccessManager::createRequest`. */
module NetworkRequest {
  import opened Headers
  import opened Optional

  /** `QNetworkAccessManager::Operation`. */
  datatype Operation =
    | HeadOperation | GetOperation | PutOperation | PostOperation | DeleteOperation | CustomOperation
    | UnknownOperation

  /** Values of `QNetworkRequest::CacheLoadControlAttribute`. */
  datatype CacheLoadControl = AlwaysNetwork | PreferNetwork | PreferCache | AlwaysCache

  /** The parts of a QNetworkRequest the manager reads or writes; `url` stands
      for the other fields a copy carries along. Qt also parses a raw header of
      a known name (such as `Content-Type`) into its typed headers; those typed
      headers are not modelled. */
  datatype Request = Request(
    url: string,
    rawHeaders: seq<RawHeader>,
    cacheLoadControl: Option<CacheLoadControl>)

  /** The factory's default request headers, in the iteration order of the
      factory's map. */
  datatype FactoryConfig = FactoryConfig(requestHeaders: seq<RawHeader>)

  /** The call handed on to the underlying manager. */
  datatype Dispatch = Dispatch(op: Operation, request: Request)

  /** Header-name equality as `QNetworkRequest::hasRawHeader` decides it;
      a parameter of the model. */
  type NameEq = (Bytes, Bytes) -> bool

  ghost predicate Reflexive(eq: NameEq)
  {
    forall a: Bytes :: eq(a, a)
  }

  /** No two default entries name the same header under `eq`. */
  ghost predicate DistinctNames(defaults: seq<RawHeader>, eq: NameEq)
  {
    forall i, j :: 0 <= i < |defaults| && 0 <= j < |defaults| && i != j ==>
      !eq(defaults[i].name, defaults[j].name)
  }

  /** `hasRawHeader(name)`: some header's name matches under `eq`. */
  predicate HasRawHeader(hs: seq<RawHeader>, name: Bytes, eq: NameEq)
    ensures HasRawHeader(hs, name, eq) ==> |hs| > 0
    ensures |hs| == 1 ==> (HasRawHeader(hs, name, eq) <==> eq(hs[0].name, name))
  {
    exists i :: 0 <= i < |hs| && eq(hs[i].name, name)
  }

  /** A concatenation carries a name exactly when one of its parts does. */
  lemma HasRawHeaderAppend(hs: seq<RawHeader>, ext: seq<RawHeader>, name: Bytes, eq: NameEq)
    ensures HasRawHeader(hs + ext, name, eq) <==> HasRawHeader(hs, name, eq) || HasRawHeader(ext, name, eq)
  {
    if HasRawHeader(hs, name, eq) {
      var i :| 0 <= i < |hs| && eq(hs[i].name, name);
      assert (hs + ext)[i] == hs[i];
    }
    if HasRawHeader(ext, name, eq) {
      var i :| 0 <= i < |ext| && eq(ext[i].name, name);
      assert (hs + ext)[|hs| + i] == ext[i];
    }
    if HasRawHeader(hs + ext, name, eq) && !HasRawHeader(hs, name, eq) {
      var i :| 0 <= i < |hs + ext| && eq((hs + ext)[i].name, name);
      assert (hs + ext)[i] == ext[i - |hs|];
    }
  }

  /** `rawHeader(name)`: the value of the first header of that name. */
  function RawHeaderValue(hs: seq<RawHeader>, name: Bytes, eq: NameEq): (r: Option<Bytes>)
    ensures r.Some? <==> HasRawHeader(hs, name, eq)
    decreases |hs|
  {
    if |hs| == 0 then None
    else if eq(hs[0].name, name) then Some(hs[0].value)
    else
      assert forall i :: 1 <= i < |hs| ==> hs[i] == hs[1..][i - 1];
      RawHeaderValue(hs[1..], name, eq)
  }

  /** The first header of that name is found in a prefix that has one. */
  lemma {:induction false} ValueInPrefix(hs: seq<RawHeader>, ext: seq<RawHeader>, name: Bytes, eq: NameEq)
    requires HasRawHeader(hs, name, eq)
    ensures RawHeaderValue(hs + ext, name, eq) == RawHeaderValue(hs, name, eq)
    decreases |hs|
  {
    if !eq(hs[0].name, name) {
      assert (hs + ext)[1..] == hs[1..] + ext;
      var i :| 0 <= i < |hs| && eq(hs[i].name, name);
      assert hs[1..][i - 1] == hs[i];
      ValueInPrefix(hs[1..], ext, name, eq);
    }
  }

  /** A prefix without that name does not change the value found. */
  lemma {:induction false} ValueAfterPrefix(hs: seq<RawHeader>, ext: seq<RawHeader>, name: Bytes, eq: NameEq)
    requires !HasRawHeader(hs, name, eq)
    ensures RawHeaderValue(hs + ext, name, eq) == RawHeaderValue(ext, name, eq)
    decreases |hs|
  {
    if |hs| == 0 {
      assert hs + ext == ext;
    } else {
      assert (hs + ext)[1..] == hs[1..] + ext;
      assert !HasRawHeader(hs[1..], name, eq) by {
        forall i | 0 <= i < |hs[1..]|
          ensures !eq(hs[1..][i].name, name)
        {
          assert hs[1..][i] == hs[i + 1];
        }
      }
      ValueAfterPrefix(hs[1..], ext, name, eq);
    }
  }

  /** The value found is that of the first header carrying the name. */
  lemma {:induction false} ValueOfFirstMatch(hs: seq<RawHeader>, name: Bytes, eq: NameEq)
    requires HasRawHeader(hs, name, eq)
    ensures exists i :: 0 <= i < |hs| && eq(hs[i].name, name) && RawHeaderValue(hs, name, eq) == Some(hs[i].value)
                        && forall k :: 0 <= k < i ==> !eq(hs[k].name, name)
    decreases |hs|
  {
    if !eq(hs[0].name, name) {
      var i :| 0 <= i < |hs| && eq(hs[i].name, name);
      assert hs[1..][i - 1] == hs[i];
      ValueOfFirstMatch(hs[1..], name, eq);
      var k :| 0 <= k < |hs[1..]| && eq(hs[1..][k].name, name)
               && RawHeaderValue(hs[1..], name, eq) == Some(hs[1..][k].value)
               && forall m :: 0 <= m < k ==> !eq(hs[1..][m].name, name);
      assert hs[k + 1] == hs[1..][k];
      assert forall m :: 1 <= m < k + 1 ==> hs[m] == hs[1..][m - 1];
    }
  }

  /** The loop over the factory's default headers: set each one the request
      does not carry yet. Setting an absent name appends it; `setRawHeader`
      ignores an empty name. The request's own headers stay in place and each
      default adds at most one header. */
  function MergeDefaultHeaders(hs: seq<RawHeader>, defaults: seq<RawHeader>, eq: NameEq): (r: seq<RawHeader>)
    ensures |hs| <= |r| <= |hs| + |defaults|
    ensures r[..|hs|] == hs
    decreases |defaults|
  {
    if |defaults| == 0 then hs
    else
      var d := defaults[0];
      var next := if |d.name| == 0 || HasRawHeader(hs, d.name, eq) then hs else hs + [d];
      var r := MergeDefaultHeaders(next, defaults[1..], eq);
      assert r[..|hs|] == r[..|next|][..|hs|];
      r
  }

  /** A prefix of the headers carries every name the prefix carries. */
  lemma HasInPrefix(hs: seq<RawHeader>, r: seq<RawHeader>, name: Bytes, eq: NameEq)
    requires |hs| <= |r| && r[..|hs|] == hs
    ensures HasRawHeader(hs, name, eq) ==> HasRawHeader(r, name, eq)
  {
  }

  /** Only defaults are added, only under a non-empty name, and only under a
      name the request did not already carry. */
  lemma {:induction false} MergeAddsOnlyMissing(hs: seq<RawHeader>, defaults: seq<RawHeader>, eq: NameEq)
    ensures forall i :: |hs| <= i < |MergeDefaultHeaders(hs, defaults, eq)| ==>
              MergeDefaultHeaders(hs, defaults, eq)[i] in defaults &&
              |MergeDefaultHeaders(hs, defaults, eq)[i].name| > 0 &&
              !HasRawHeader(hs, MergeDefaultHeaders(hs, defaults, eq)[i].name, eq)
    decreases |defaults|
  {
    if |defaults| > 0 {
      var d := defaults[0];
      var next := if |d.name| == 0 || HasRawHeader(hs, d.name, eq) then hs else hs + [d];
      var tail := defaults[1..];
      var r := MergeDefaultHeaders(hs, defaults, eq);
      assert r == MergeDefaultHeaders(next, tail, eq);
      MergeAddsOnlyMissing(next, tail, eq);
      forall i | |hs| <= i < |r|
        ensures r[i] in defaults && |r[i].name| > 0 && !HasRawHeader(hs, r[i].name, eq)
      {
        if i < |next| {
          assert r[i] == r[..|next|][i] == d;
        } else {
          assert r[i] in tail;
          HasInPrefix(hs, next, r[i].name, eq);
        }
      }
    }
  }

  /** With a reflexive `eq`, every default with a non-empty name is present
      after the merge: set by the merge or already there. */
  lemma {:induction false} MergeCoversDefaults(hs: seq<RawHeader>, defaults: seq<RawHeader>, eq: NameEq)
    ensures Reflexive(eq) ==> forall j :: 0 <= j < |defaults| && |defaults[j].name| > 0 ==>
              HasRawHeader(MergeDefaultHeaders(hs, defaults, eq), defaults[j].name, eq)
    decreases |defaults|
  {
    if |defaults| > 0 && Reflexive(eq) {
      var d := defaults[0];
      var next := if |d.name| == 0 || HasRawHeader(hs, d.name, eq) then hs else hs + [d];
      var tail := defaults[1..];
      var r := MergeDefaultHeaders(hs, defaults, eq);
      assert r == MergeDefaultHeaders(next, tail, eq);
      MergeCoversDefaults(next, tail, eq);
      forall j | 0 <= j < |defaults| && |defaults[j].name| > 0
        ensures HasRawHeader(r, defaults[j].name, eq)
      {
        if j == 0 {
          HasInPrefix(hs, next, d.name, eq);
          if !HasRawHeader(hs, d.name, eq) {
            assert next[|hs|] == d && eq(d.name, d.name);
          }
          HasInPrefix(next, r, d.name, eq);
        } else {
          assert defaults[j] == tail[j - 1];
        }
      }
    }
  }

  /** A default the request lacks is added exactly when its name is not
      empty, provided no other default names the same header. */
  lemma MergeAddsMissingDefaults(hs: seq<RawHeader>, defaults: seq<RawHeader>, eq: NameEq)
    requires DistinctNames(defaults, eq)
    ensures forall j :: 0 <= j < |defaults| && !HasRawHeader(hs, defaults[j].name, eq) ==>
              (defaults[j] in MergeDefaultHeaders(hs, defaults, eq)[|hs|..] <==> |defaults[j].name| > 0)
  {
    AddedPart(hs, defaults, eq);
    forall j | 0 <= j < |defaults| && !HasRawHeader(hs, defaults[j].name, eq) && |defaults[j].name| > 0
      ensures defaults[j] in MergeDefaultHeaders(hs, defaults, eq)[|hs|..]
    {
      AddedWhenMissing(hs, defaults, eq, j);
    }
  }

  /** A named default the request lacks ends up among the added headers. */
  lemma {:induction false} AddedWhenMissing(hs: seq<RawHeader>, defaults: seq<RawHeader>, eq: NameEq, j: nat)
    requires DistinctNames(defaults, eq)
    requires j < |defaults| && |defaults[j].name| > 0 && !HasRawHeader(hs, defaults[j].name, eq)
    ensures defaults[j] in MergeDefaultHeaders(hs, defaults, eq)[|hs|..]
    decreases |defaults|
  {
    var d := defaults[0];
    var next := if |d.name| == 0 || HasRawHeader(hs, d.name, eq) then hs else hs + [d];
    var tail := defaults[1..];
    var r := MergeDefaultHeaders(hs, defaults, eq);
    assert r == MergeDefaultHeaders(next, tail, eq);
    if j == 0 {
      assert r[..|next|] == next;
      assert r[|hs|..][0] == r[|hs|] == next[|hs|];
    } else {
      assert DistinctNames(tail, eq) by {
        forall a, b | 0 <= a < |tail| && 0 <= b < |tail| && a != b
          ensures !eq(tail[a].name, tail[b].name)
        {
          assert tail[a] == defaults[a + 1] && tail[b] == defaults[b + 1];
        }
      }
      assert tail[j - 1] == defaults[j];
      assert !HasRawHeader(next, defaults[j].name, eq) by {
        assert !eq(d.name, defaults[j].name);
        assert forall i :: 0 <= i < |hs| ==> next[i] == hs[i];
      }
      AddedWhenMissing(next, tail, eq, j - 1);
      assert r[|next|..] == r[|hs|..][|next| - |hs|..];
    }
  }

  /** Once every default name is present the merge changes nothing. */
  lemma {:induction false} MergeWhenAllPresent(hs: seq<RawHeader>, defaults: seq<RawHeader>, eq: NameEq)
    requires forall j :: 0 <= j < |defaults| && |defaults[j].name| > 0 ==> HasRawHeader(hs, defaults[j].name, eq)
    ensures MergeDefaultHeaders(hs, defaults, eq) == hs
    decreases |defaults|
  {
    if |defaults| > 0 {
      assert forall j :: 1 <= j < |defaults| ==> defaults[j] == defaults[1..][j - 1];
      MergeWhenAllPresent(hs, defaults[1..], eq);
    }
  }

  /** Merging the same defaults twice is merging them once. */
  lemma MergeIdempotent(hs: seq<RawHeader>, defaults: seq<RawHeader>, eq: NameEq)
    requires Reflexive(eq)
    ensures MergeDefaultHeaders(MergeDefaultHeaders(hs, defaults, eq), defaults, eq)
         == MergeDefaultHeaders(hs, defaults, eq)
  {
    MergeCoversDefaults(hs, defaults, eq);
    MergeWhenAllPresent(MergeDefaultHeaders(hs, defaults, eq), defaults, eq);
  }

  /** A header the request already carries keeps the value it had. */
  lemma MergeKeepsExistingValue(hs: seq<RawHeader>, defaults: seq<RawHeader>, eq: NameEq, name: Bytes)
    requires HasRawHeader(hs, name, eq)
    ensures RawHeaderValue(MergeDefaultHeaders(hs, defaults, eq), name, eq) == RawHeaderValue(hs, name, eq)
  {
    var r := MergeDefaultHeaders(hs, defaults, eq);
    assert r == hs + r[|hs|..];
    ValueInPrefix(hs, r[|hs|..], name, eq);
  }

  /** With distinct names, the only default entry matching entry `j`'s name
      is entry `j`. */
  lemma OnlyEntryWithName(defaults: seq<RawHeader>, eq: NameEq, a: RawHeader, j: nat)
    requires DistinctNames(defaults, eq) && j < |defaults| && a in defaults
    ensures eq(a.name, defaults[j].name) ==> a == defaults[j]
  {
  }

  /** The headers the merge adds come from the defaults and carry a name. */
  lemma AddedPart(hs: seq<RawHeader>, defaults: seq<RawHeader>, eq: NameEq)
    ensures var r := MergeDefaultHeaders(hs, defaults, eq);
            && r == hs + r[|hs|..]
            && forall k :: 0 <= k < |r[|hs|..]| ==> r[|hs|..][k] in defaults && |r[|hs|..][k].name| > 0
  {
    var r := MergeDefaultHeaders(hs, defaults, eq);
    MergeAddsOnlyMissing(hs, defaults, eq);
    assert forall k :: 0 <= k < |r[|hs|..]| ==> r[|hs|..][k] == r[|hs| + k];
  }

  /** A default with a name that the request lacked reads back as its value. */
  lemma FilledValue(hs: seq<RawHeader>, defaults: seq<RawHeader>, eq: NameEq, j: nat)
    requires Reflexive(eq) && DistinctNames(defaults, eq)
    requires j < |defaults| && |defaults[j].name| > 0 && !HasRawHeader(hs, defaults[j].name, eq)
    ensures RawHeaderValue(MergeDefaultHeaders(hs, defaults, eq), defaults[j].name, eq) == Some(defaults[j].value)
  {
    var r := MergeDefaultHeaders(hs, defaults, eq);
    var name := defaults[j].name;
    var added := r[|hs|..];
    AddedPart(hs, defaults, eq);
    ValueAfterPrefix(hs, added, name, eq);
    MergeCoversDefaults(hs, defaults, eq);
    assert HasRawHeader(r, name, eq);
    AddedValue(added, defaults, eq, j);
  }

  /** In headers taken from distinct defaults, the value read for entry `j`'s
      name is entry `j`'s value. */
  lemma AddedValue(added: seq<RawHeader>, defaults: seq<RawHeader>, eq: NameEq, j: nat)
    requires DistinctNames(defaults, eq) && j < |defaults|
    requires forall k :: 0 <= k < |added| ==> added[k] in defaults
    requires HasRawHeader(added, defaults[j].name, eq)
    ensures RawHeaderValue(added, defaults[j].name, eq) == Some(defaults[j].value)
  {
  }

  /** A default with an empty name is never set, so it stays absent. */
  lemma EmptyNameStaysAbsent(hs: seq<RawHeader>, defaults: seq<RawHeader>, eq: NameEq, j: nat)
    requires DistinctNames(defaults, eq)
    requires j < |defaults| && |defaults[j].name| == 0 && !HasRawHeader(hs, defaults[j].name, eq)
    ensures RawHeaderValue(MergeDefaultHeaders(hs, defaults, eq), defaults[j].name, eq) == None
  {
    var r := MergeDefaultHeaders(hs, defaults, eq);
    var name := defaults[j].name;
    var added := r[|hs|..];
    AddedPart(hs, defaults, eq);
    ValueAfterPrefix(hs, added, name, eq);
    forall k | 0 <= k < |added|
      ensures !eq(added[k].name, name)
    {
      OnlyEntryWithName(defaults, eq, added[k], j);
    }
  }

  /** A default the request lacked afterwards reads back as the default value;
      one with an empty name was not set and still reads back as absent. */
  lemma MergeFillsMissingValue(hs: seq<RawHeader>, defaults: seq<RawHeader>, eq: NameEq, j: nat)
    requires Reflexive(eq) && DistinctNames(defaults, eq)
    requires j < |defaults| && !HasRawHeader(hs, defaults[j].name, eq)
    ensures RawHeaderValue(MergeDefaultHeaders(hs, defaults, eq), defaults[j].name, eq)
         == (if |defaults[j].name| > 0 then Some(defaults[j].value) else None)
  {
    if |defaults[j].name| > 0 {
      FilledValue(hs, defaults, eq, j);
    } else {
      EmptyNameStaysAbsent(hs, defaults, eq, j);
    }
  }

  /** `JSNAM::createRequest` up to the hand-off: the operation is passed on
      unchanged, and the request passed on is the caller's copied with the
      cache preferred and the missing defaults filled in. */
  function CreateRequest(op: Operation, request: Request, factory: FactoryConfig, eq: NameEq): (d: Dispatch)
    ensures d.op == op
    ensures d.request.cacheLoadControl == Some(PreferCache)
    ensures d.request.url == request.url
    ensures |request.rawHeaders| <= |d.request.rawHeaders|
    ensures d.request.rawHeaders[..|request.rawHeaders|] == request.rawHeaders
    ensures forall i :: |request.rawHeaders| <= i < |d.request.rawHeaders| ==>
              d.request.rawHeaders[i] in factory.requestHeaders &&
              |d.request.rawHeaders[i].name| > 0 &&
              !HasRawHeader(request.rawHeaders, d.request.rawHeaders[i].name, eq)
    ensures Reflexive(eq) ==> forall j :: 0 <= j < |factory.requestHeaders| && |factory.requestHeaders[j].name| > 0 ==>
              HasRawHeader(d.request.rawHeaders, factory.requestHeaders[j].name, eq)
  {
    var copy := request.(cacheLoadControl := Some(PreferCache));
    var merged := MergeDefaultHeaders(request.rawHeaders, factory.requestHeaders, eq);
    MergeAddsOnlyMissing(request.rawHeaders, factory.requestHeaders, eq);
    MergeCoversDefaults(request.rawHeaders, factory.requestHeaders, eq);
    Dispatch(op, copy.(rawHeaders := merged))
  }

  /** Passing a prepared request through the manager again changes nothing. */
  lemma CreateRequestIdempotent(op: Operation, request: Request, factory: FactoryConfig, eq: NameEq)
    requires Reflexive(eq)
    ensures CreateRequest(op, CreateRequest(op, request, factory, eq).request, factory, eq)
         == CreateRequest(op, request, factory, eq)
  {
    MergeIdempotent(request.rawHeaders, factory.requestHeaders, eq);
  }
}
